=== FILE: README.md ===
# bioeval chunk evaluator — a Dafny model

This project models the core of bioeval, an evaluator for BIO/BIOES chunk
tagging. The core has three parts.

- **Extractor** (`df2chunkset`). It reads the rows of a tagged frame. Each
  row has a gold tag and a guess tag. It makes two independent passes, and
  each pass cuts one tag column into chunks. A tag whose first character is
  `B`, `O` or `S` opens a new chunk. Any other tag continues the open chunk.
  A chunk is a tuple of `(row index, tag)` tokens, and each pass returns a
  set of chunks.
- **Scorer** (`get_ncor`, `evaluate`, `evaluate_df`, `fscore`). It first
  checks that both chunk sets flatten to the same number of tokens. It then
  drops every chunk whose first token's tag cell is exactly `'O'`. The
  chunks left in both sets are the correct ones. Precision, recall and F1
  are computed as percentages.
- **Accumulator** (`AccuracyResults.from_results_list`). It folds a list of
  per-category score tables into one table, field by field, and divides
  the averaged fields by the number of tables.

Modules:

- `Common` (common.dfy) holds tokens, chunks, the `Result` type and the
  exceptions the source raises.
- `Chunking` (chunking.dfy) holds the extractor. It is modelled twice:
  - `Df2ChunkSet` is the source's loop;
  - `Extract` is a closed-form reference, in which the chunk opened at
    boundary row `j` is the run of rows up to the next boundary row.
  - The method is proved equal to the reference.
  - The partition and shape lemmas are stated about the reference.
- `Scoring` (scoring.dfy) holds `get_ncor`, `evaluate` and `fscore`.
- `EvalDf` (evaldf.dfy) holds `evaluate_df`.
- `Accuracy` (accuracy.dfy) holds `from_results_list`, both as written and
  corrected.

Modelling choices:

- Python floats are exact `real`s. The scores are the unrounded
  percentages, which is `do_round=False`.
- A token is a sequence of cells, each an integer or a string, so that
  `evaluate` can read any column of any token.
- Each exception is a constructor of `Common.Error`, and operations return
  `Result`.
- The length of the flattened token list of a set does not depend on the
  order the set is iterated in. `Scoring.TokenCount` defines it by taking
  out any one chunk at a time, which makes it a ghost function. As a
  result, `Scoring.Evaluate` and `EvalDf.EvaluateDf` are ghost functions.
  `Scoring.CountTokens` is the executable loop, and it is proved to give
  the same count.

Edge cases, as the code handles them:

- On empty input, `df2chunkset` reads row 0 and raises `IndexError`. It
  does not return two empty sets. In the model this is `EmptyInput`.
- After the first row, a tag whose first character is not `B`, `O` or `S`
  silently continues the open chunk, whatever that character is. It is not
  rejected as invalid.
- An empty tag string raises `IndexError` at `tag[0]`. This is
  `EmptyTag(row, side)`, and the model keeps the source's order: the gold
  tag of a row is checked before its guess tag.

## Model

| member | source | states |
|---|---|---|
| Chunking.Extract | bioeval/utils.py:210-238 | Succeeds exactly when there is a first row, both of its tags open chunks, and no later tag is empty. On success, the gold set is the chunks of the gold column alone and the guess set is the chunks of the guess column alone, so each pass depends only on its own column. Empty input is an IndexError. A first gold tag, then a first guess tag, that does not start with B/O/S is a ValueError naming the column. An empty first-row tag is an IndexError for that column, checked gold first; after a valid first row the result is the scan of the later rows, so an empty later tag is reported at the first row and column where it occurs. |
| Chunking.LaterEmptyTag | bioeval/utils.py:217-218 | Rows (B, B), ("", B): the empty gold tag of row 1 is an IndexError at row 1, gold column. |
| Chunking.ScanTags | bioeval/utils.py:217-231 | Scanning the rows after the first fails exactly when a later tag is empty. It reports the first such row, and the gold column before the guess column. Otherwise it yields the two chunk sets. |
| Chunking.Df2ChunkSet | bioeval/utils.py:197-238 | The source's single loop, with one open chunk per column, returns exactly what the closed-form extractor returns, errors included. |
| Chunking.ScanRows | bioeval/utils.py:215-236 | The loop over the rows after the first, with both passes in step, returns what the closed-form scan returns: the first empty tag, or the two chunk sets. |
| Chunking.ChunkStep | bioeval/utils.py:218-231 | One row of one pass. A boundary tag emits the open chunk and opens `[(i, tag)]`; any other tag appends the row to the open chunk and emits nothing. The emitted set is always the runs of the boundary rows before the open chunk's start. |
| Chunking.RunEnd | bioeval/utils.py:217-224 | A chunk opened at row j ends at the first boundary row after j, or at the end of the column. No boundary row lies strictly inside it. |
| Chunking.CloseRun | bioeval/utils.py:218-221 | Closing the open chunk at the next boundary, or at the end (lines 233-236), adds exactly the run of the open chunk's start to the emitted set. |
| Chunking.Partition | bioeval/utils.py:215-236 | Concatenating one pass's chunks in the order of their opening rows gives back that column's `(index, tag)` list. No chunk is emitted twice. The set has exactly one chunk per boundary row. |
| Chunking.RunsFromCount | bioeval/utils.py:218-221 | The number of chunks emitted from row j on equals the number of boundary rows from j on. |
| Chunking.RunsFromNoDuplicates | bioeval/utils.py:220-221 | Chunks start at distinct row indices, so adding them to the set never merges two of them. |
| Chunking.RunsFromFlatten | bioeval/utils.py:215-236 | The chunks emitted from boundary row j on flatten to the tokens of rows j onward. |
| Chunking.ChunkShape | bioeval/utils.py:215-231 | Every extracted chunk is non-empty. Its first tag starts with B/O/S and every later tag does not. Its tokens cover consecutive, increasing row indices with those rows' own tags. It ends just before the next boundary row or at the last row. |
| Chunking.PassesMayDisagree | bioeval/utils.py:218-231 | The two passes are independent. Rows (B-NP, B-NP), (I-NP, B-NP) give one gold chunk but two guess chunks. |
| Scoring.GetNcor | bioeval/core.py:26-33 | A chunk is correct exactly when it is in both sets, by whole-tuple equality. There are no more correct chunks than either set has. |
| Scoring.TokenCountRemove | bioeval/core.py:76-77 | The flattened token count of a set is any one chunk's length plus the count of the rest, so the count does not depend on iteration order. |
| Scoring.CountTokens | bioeval/core.py:76-77 | Flattening a chunk set in any iteration order yields the set's token count. |
| Scoring.Ratios | bioeval/core.py:86-97 | Fails with ZeroDivisionError exactly when there are no labelled guess chunks, no labelled gold chunks, or no correct chunks (precision + recall = 0). Otherwise precision·guess = 100·correct, recall·gold = 100·correct, and F1·(gold + guess) = 200·correct. |
| Scoring.DiceIdentity | bioeval/core.py:88-91 | With c correct chunks, g gold and u guess chunks, the F1 percentage times (g + u) is 200·c, i.e. the harmonic mean of c/u and c/g is 2c/(g+u). |
| Scoring.RatiosBounds | bioeval/core.py:86-97 | With no more correct chunks than either side has, precision, recall and F1 all lie in (0, 100]. |
| Scoring.RatiosSymmetric | bioeval/core.py:88-91 | Swapping the gold and guess counts swaps precision and recall and keeps F1; both orders fail or succeed together. |
| Scoring.FScore | bioeval/utils.py:90-91 | Fails with ZeroDivisionError exactly when p + r = 0. For non-negative inputs the value lies between 100·min(p, r) and 100·max(p, r). |
| Scoring.HarmonicBetween | bioeval/utils.py:90-91 | The harmonic mean `2pr/(p+r)` of non-negative p, r lies between their minimum and maximum. |
| Scoring.FScoreSymmetric | bioeval/utils.py:90-91 | `fscore(p, r) == fscore(r, p)`, including the failure case. |
| Scoring.Evaluate | bioeval/core.py:36-97 | Different flattened token counts give an AssertionError carrying both counts. A chunk with no first token or no tag column is an IndexError. Otherwise the call succeeds exactly when some chunk is in both sets and its tag cell is not exactly `'O'`. Precision and recall are then the correct count over the labelled guess and labelled gold counts, times 100, and all three scores lie in (0, 100]. |
| Scoring.CommonLabelled | bioeval/core.py:83-86 | There is at least one correct chunk exactly when some chunk is in both sets with a tag cell other than `'O'`. |
| Scoring.OnlyExactOExcluded | bioeval/core.py:83-84 | A chunk tagged `'O'` is dropped, but a chunk tagged `'.'` is still scored. |
| Scoring.EvaluateSymmetric | bioeval/core.py:76-91 | Swapping gold and guess swaps precision and recall and keeps F1. It fails in the same way, with the two counts of a token mismatch swapped. |
| Scoring.EvaluateIdentity | bioeval/core.py:83-97 | A chunk set scored against itself, with at least one chunk not tagged `'O'`, gets F1 = precision = recall = 100. |
| Scoring.EvaluateIsFScore | bioeval/core.py:88-97 | The F1 that `evaluate` returns equals `fscore` of its precision and recall, taken as fractions. |
| Scoring.RatiosIsFScore | bioeval/core.py:88-97 | The F1 computed from the counts equals `fscore` of the computed precision and recall. |
| EvalDf.ChunksTokenCount | bioeval/utils.py:215-236 | Each pass's chunk set flattens to exactly one token per row. |
| EvalDf.TokenCountElems | bioeval/core.py:76-77 | A duplicate-free list of chunks and the set of its elements flatten to the same number of tokens. |
| EvalDf.ChunksTagColumn | bioeval/core.py:115-117 | Every extracted chunk has a tag cell in column 1. That cell is `'O'` exactly when the chunk's opening row is tagged `O`. |
| EvalDf.CommonLabelledChunk | bioeval/core.py:83-86 | A labelled chunk common to both passes exists exactly when some boundary row not tagged `O` opens the same run in both columns. |
| EvalDf.EvaluateDf | bioeval/core.py:100-117 | The extractor's error is passed through; for well-formed rows every failure is a ZeroDivisionError. Since both passes flatten to one token per row, the token-count assertion and the column lookup never fail. The call succeeds exactly when the rows are well formed and some labelled boundary row opens identical gold and guess chunks. Scores lie in (0, 100]. |
| EvalDf.EvaluateDfIdentity | bioeval/core.py:115-117 | Rows whose guess tags equal their gold tags, with a boundary row not tagged `O`, score 100 on all three measures. |
| Accuracy.FoldSucceeds | bioeval/utils.py:110-129 | The summing loop succeeds exactly when every record of every result, and the container's record of every category the results mention, has all the fields it reads. A missing field is a KeyError. |
| Accuracy.FoldValueAt | bioeval/utils.py:110-129 | After the summing loop, a category is present exactly when it was in the container or in some result. Untouched categories keep their record. A mentioned category has exactly the mode's fields, each the container's value plus the sum over the results that contain the category. |
| Accuracy.AverageSucceeds | bioeval/utils.py:110-136 | Folding and dividing succeeds exactly when the fold's fields exist and every untouched category already has the fields being averaged. |
| Accuracy.AverageValueAt | bioeval/utils.py:108-136 | A category is in the result exactly when it is in the container or in some result. A category some result mentions has exactly the mode's fields, each the container's value (zero for a new category) plus the sum over the results containing it, divided by the total number of results when the field is averaged. A category only the container holds keeps its record with the averaged fields divided by the number of results. |
| Accuracy.ScoreRecordsAveraged | bioeval/utils.py:108-136 | Starting from an empty container, for chunking-score tables every category's fscore, precision and recall are the sums over the results that contain it, divided by the number of all results. |
| Accuracy.MissingCategoryHalved | bioeval/utils.py:130-136 | A category with fscore 80 in one of two results, and absent from the other, averages to 40: it is divided by the full count. |
| Accuracy.AccuracyRecordsRejected | bioeval/utils.py:109 | As written, a list of tagging-accuracy tables is rejected with KeyError, because its categories are not named `accuracy`. |
| Accuracy.AccuracyRecordsAveraged | bioeval/utils.py:109-136 | Starting from an empty container and with the layout read from the records, tagging-accuracy tables are averaged: `accuracy` is the mean over all results, and `all` and `correct` are sums. |

## Left out

- Rounding to two decimals (bioeval/core.py:93-95) is binary floating-point `round`. Only the unrounded scores are modelled, with `real` in place of `float`.
- pandas `DataFrame` handling: rows are a sequence of (gold tag, guess tag) records, and a row's index is its position (the default `RangeIndex`). Non-positional index labels are not modelled, and neither are passthrough feature columns.
- Non-default column names: the guess boundary test reads the fixed attribute `r.guesstag` (bioeval/utils.py:225), so the model assumes the default column names.
- Negative `chunk_col` values, which Python counts from the end of the tuple, are not modelled: the column is a `nat`.
- Which `IndexError` Python raises first inside `evaluate` is not modelled: `IndexError: tuple index out of range` carries no position, so the order does not change the error.
- FromResultsList: `MissingField` does not record which field was missing. Python's `KeyError` names it, and which one is raised first depends on the key order of the result tables and the field order at bioeval/utils.py:121-136.
- DivideAll: records are values, not shared objects. The source divides the receiver's record objects in place (bioeval/utils.py:130-136), so a record object that two categories share is divided once per category; the model divides each category's record once.
- AverageValueAt: its averaged values assume the same unshared records, so it does not describe a receiver whose categories share one record object.
- The container's partly updated state after an exception in `from_results_list` is not modelled; the model returns only the error.
- `AccuracyResults.parse_conll_eval_table`, `export_to_file`, `_to_str` and `__str__` (bioeval/utils.py:138-194) are file I/O, regex table parsing and text formatting.
- `random_summed_pair`, `random_token`, `make_chunk`, `make_chunk_pair`, `random_str` and `mock_chunks` (bioeval/utils.py:10-87) generate random test data.
- `AccuracyResults.total` (bioeval/utils.py:100-106) only returns a constant name.
- src/bioeval.py is an abandoned earlier draft: its `evaluate` loop never runs, so it always divides by zero. src/tests.py and tests/test_bioeval.py are test suites, and release.py and setup.py are packaging scripts.

## Findings

| source | as written | input that shows it | evidently intended | confidence | as-written member | corrected member |
|---|---|---|---|---|---|---|
| bioeval/utils.py:109 | `acc = 'accuracy' in results[0].keys()` tests whether the first result has a CATEGORY named `accuracy`. | `[{'NP': {'accuracy': 0.9, 'all': 10, 'correct': 9}}]`: the fold takes the score layout and reads `fscore`, which raises KeyError. | Test whether the first result's RECORDS carry an `accuracy` field, so that tagging-accuracy tables are averaged on `accuracy` and summed on `all` and `correct`. | not executed | Accuracy.FromResultsList, Accuracy.AccuracyRecordsRejected | Accuracy.FromResultsListByRecord, Accuracy.AccuracyRecordsAveraged |

=== FILE: accuracy.dfy ===
/** `AccuracyResults.from_results_list`: folds a list of per-category
    result tables into the container, field by field, then divides the
    averaged fields by the number of results.

    A table maps a category name to a score record, and a record maps a
    field name to a number. Reading a field a record lacks is a `KeyError`.
 */
module Accuracy {
  import opened Common

  type Record = map<string, real>

  type Table = map<string, Record>

  /** The two record layouts the fold knows: tagging accuracy
      (`accuracy`, `all`, `correct`) and chunking scores (`fscore`,
      `precision`, `recall`). */
  datatype Mode = AccuracyMode | ScoreMode

  /** The fields every folded record carries. */
  function Fields(mode: Mode): set<string>
  {
    match mode
    case AccuracyMode => {"accuracy", "all", "correct"}
    case ScoreMode => {"fscore", "precision", "recall"}
  }

  /** The fields divided by the number of results at the end: in accuracy
      mode only `accuracy`, so `all` and `correct` stay sums. */
  function Averaged(mode: Mode): set<string>
  {
    match mode
    case AccuracyMode => {"accuracy"}
    case ScoreMode => Fields(mode)
  }

  predicate HasFields(rec: Record, fields: set<string>)
  {
    fields <= rec.Keys
  }

  /** A field's value, zero when absent. */
  function Field(rec: Record, f: string): real
  {
    if f in rec then rec[f] else 0.0
  }

  /** The all-zero record a category starts from. */
  function Zero(mode: Mode): Record
  {
    map f | f in Fields(mode) :: 0.0
  }

  /** `self[k]`, or the zero record when the category is new. */
  function Current(acc: Table, k: string, mode: Mode): Record
  {
    if k in acc then acc[k] else Zero(mode)
  }

  /** The new record `{f: v[f] + w[f] for the mode's fields}`. */
  function AddRecords(v: Record, w: Record, mode: Mode): Record
    requires HasFields(v, Fields(mode)) && HasFields(w, Fields(mode))
  {
    map f | f in Fields(mode) :: v[f] + w[f]
  }

  /** The inner loop over `r.keys()`: every category of `r` is added into
      the container; a missing field anywhere is a `KeyError`. */
  function AddResult(acc: Table, r: Table, mode: Mode): Result<Table>
  {
    if forall k :: k in r ==> HasFields(r[k], Fields(mode)) && HasFields(Current(acc, k, mode), Fields(mode))
    then Success(map k | k in acc.Keys + r.Keys ::
                   if k in r then AddRecords(Current(acc, k, mode), r[k], mode) else acc[k])
    else Failure(MissingField)
  }

  /** The outer loop over `results`. */
  function Fold(acc: Table, results: seq<Table>, mode: Mode): Result<Table>
    decreases |results|
  {
    if results == [] then Success(acc)
    else
      match AddResult(acc, results[0], mode)
      case Failure(e) => Failure(e)
      case Success(next) => Fold(next, results[1..], mode)
  }

  /** `self[k][f] /= n` for every category and every averaged field. */
  function DivideAll(acc: Table, n: nat, mode: Mode): Result<Table>
    requires n > 0
  {
    if forall k :: k in acc ==> HasFields(acc[k], Averaged(mode))
    then Success(map k | k in acc :: DivideRecord(acc[k], n, mode))
    else Failure(MissingField)
  }

  function DivideRecord(rec: Record, n: nat, mode: Mode): Record
    requires n > 0
  {
    map f | f in rec :: if f in Averaged(mode) then rec[f] / n as real else rec[f]
  }

  /** The fold and the division for a given record layout. */
  function Average(init: Table, results: seq<Table>, mode: Mode): Result<Table>
    requires |results| > 0
  {
    match Fold(init, results, mode)
    case Failure(e) => Failure(e)
    case Success(t) => DivideAll(t, |results|, mode)
  }

  /** The layout test as written: accuracy mode when the first result has a
      CATEGORY named `accuracy`. */
  function ModeAsWritten(first: Table): Mode
  {
    if "accuracy" in first then AccuracyMode else ScoreMode
  }

  /** `from_results_list` as written, starting from the container's
      current contents `init`. */
  function FromResultsList(init: Table, results: seq<Table>): Result<Table>
  {
    if |results| == 0 then Failure(EmptyResults)
    else Average(init, results, ModeAsWritten(results[0]))
  }

  /** The layout test the container evidently intends: accuracy mode when
      the first result's records carry an `accuracy` field. */
  function ModeByRecord(first: Table): Mode
  {
    if exists k :: k in first && "accuracy" in first[k] then AccuracyMode else ScoreMode
  }

  /** `from_results_list` with the layout read from the records. */
  function FromResultsListByRecord(init: Table, results: seq<Table>): Result<Table>
  {
    if |results| == 0 then Failure(EmptyResults)
    else Average(init, results, ModeByRecord(results[0]))
  }

  // ----- Specification -----

  /** Category `k` occurs in some result. */
  predicate InSome(results: seq<Table>, k: string)
  {
    results != [] && (k in results[0] || InSome(results[1..], k))
  }

  /** The sum of field `f` over the results that contain category `k`. */
  function Total(results: seq<Table>, k: string, f: string): real
  {
    if results == [] then 0.0
    else (if k in results[0] then Field(results[0][k], f) else 0.0) + Total(results[1..], k, f)
  }

  /** Every field the fold reads exists: in every record of every result,
      and in the container's record of every category the results mention. */
  ghost predicate Complete(acc: Table, results: seq<Table>, mode: Mode)
  {
    && (forall i, k :: 0 <= i < |results| && k in results[i] ==> HasFields(results[i][k], Fields(mode)))
    && (forall k :: InSome(results, k) ==> HasFields(Current(acc, k, mode), Fields(mode)))
  }

  lemma {:induction false} TotalAbsent(results: seq<Table>, k: string, f: string)
    requires !InSome(results, k)
    ensures Total(results, k, f) == 0.0
    decreases |results|
  {
    if results != [] {
      assert k !in results[0];
      TotalAbsent(results[1..], k, f);
    }
  }

  /** One result added into the container, seen from category `k`: a
      category the result mentions gets the mode's fields, each the sum of
      the container's and the result's value; any other keeps its record. */
  lemma AddResultAt(acc: Table, r: Table, mode: Mode, k: string)
    requires AddResult(acc, r, mode).Success?
    ensures var next := AddResult(acc, r, mode).value;
              && (k in next <==> k in acc || k in r)
              && (k !in r && k in acc ==> next[k] == acc[k])
              && (k in r ==>
                    && next[k].Keys == Fields(mode)
                    && forall f :: f in Fields(mode) ==>
                         next[k][f] == Field(Current(acc, k, mode), f) + Field(r[k], f))
  {
  }

  /** The fold succeeds exactly when every field it reads exists. */
  lemma {:induction false} FoldSucceeds(acc: Table, results: seq<Table>, mode: Mode)
    ensures Fold(acc, results, mode).Success? <==> Complete(acc, results, mode)
    decreases |results|
  {
    if results != [] {
      var r0, rest := results[0], results[1..];
      var step := AddResult(acc, r0, mode);
      if step.Success? {
        var next := step.value;
        FoldSucceeds(next, rest, mode);
        forall k | k !in r0
          ensures Current(next, k, mode) == Current(acc, k, mode)
        {
          AddResultAt(acc, r0, mode, k);
        }
        forall k | k in r0
          ensures HasFields(r0[k], Fields(mode)) && HasFields(Current(acc, k, mode), Fields(mode))
          ensures HasFields(Current(next, k, mode), Fields(mode))
        {
          AddResultAt(acc, r0, mode, k);
        }
        if Complete(next, rest, mode) {
          forall i, k | 0 <= i < |results| && k in results[i]
            ensures HasFields(results[i][k], Fields(mode))
          {
            if i > 0 {
              assert results[i] == rest[i - 1];
            }
          }
          assert Complete(acc, results, mode);
        }
        if Complete(acc, results, mode) {
          forall i, k | 0 <= i < |rest| && k in rest[i]
            ensures HasFields(rest[i][k], Fields(mode))
          {
            assert rest[i] == results[i + 1];
          }
          assert Complete(next, rest, mode);
        }
      } else {
        var k :| k in r0 && !(HasFields(r0[k], Fields(mode)) && HasFields(Current(acc, k, mode), Fields(mode)));
        assert InSome(results, k);
        assert !Complete(acc, results, mode);
      }
    }
  }

  /** What the fold computes for category `k`: it is in the result when
      it is in the container or in some result; no result mentions it, it
      keeps its record; otherwise it gets the mode's fields, each the
      container's value plus the sum over the results that contain `k`. */
  lemma {:induction false} FoldValueAt(acc: Table, results: seq<Table>, mode: Mode, k: string)
    requires Fold(acc, results, mode).Success?
    ensures var t := Fold(acc, results, mode).value;
              && (k in t <==> k in acc || InSome(results, k))
              && (k in t && !InSome(results, k) ==> t[k] == acc[k])
              && (InSome(results, k) ==>
                    && t[k].Keys == Fields(mode)
                    && forall f :: f in Fields(mode) ==>
                         t[k][f] == Field(Current(acc, k, mode), f) + Total(results, k, f))
    decreases |results|
  {
    if results != [] {
      var r0, rest := results[0], results[1..];
      assert AddResult(acc, r0, mode).Success?;
      var next := AddResult(acc, r0, mode).value;
      assert Fold(acc, results, mode) == Fold(next, rest, mode);
      FoldValueAt(next, rest, mode, k);
      AddResultAt(acc, r0, mode, k);
      assert InSome(results, k) <==> k in r0 || InSome(rest, k);
      if k in r0 && !InSome(rest, k) {
        forall f | f in Fields(mode)
          ensures Total(rest, k, f) == 0.0
        {
          TotalAbsent(rest, k, f);
        }
      }
    }
  }

  lemma AverageSucceeds(init: Table, results: seq<Table>, mode: Mode)
    requires |results| > 0
    ensures Average(init, results, mode).Success? <==>
              && Complete(init, results, mode)
              && forall k :: k in init && !InSome(results, k) ==> HasFields(init[k], Averaged(mode))
  {
    FoldSucceeds(init, results, mode);
    if Fold(init, results, mode).Success? {
      var t := Fold(init, results, mode).value;
      DivideAllSpec(t, |results|, mode);
      assert Average(init, results, mode) == DivideAll(t, |results|, mode);
      forall k
        ensures k in t <==> k in init || InSome(results, k)
        ensures k in t && !InSome(results, k) ==> t[k] == init[k]
        ensures k in t && InSome(results, k) ==> HasFields(t[k], Averaged(mode))
      {
        FoldValueAt(init, results, mode, k);
      }
    }
  }

  /** A successful average is the division of a successful fold. */
  lemma AverageIsDivide(init: Table, results: seq<Table>, mode: Mode)
    requires |results| > 0
    requires Average(init, results, mode).Success?
    ensures Fold(init, results, mode).Success?
    ensures Average(init, results, mode) == DivideAll(Fold(init, results, mode).value, |results|, mode)
  {
  }

  /** What the average computes for category `k`: it is present when it
      is in the container or in some result, and then each of the mode's
      fields is the container's value plus the sum over the results,
      divided by the number of results when the field is averaged. */
  lemma AverageValueAt(init: Table, results: seq<Table>, mode: Mode, k: string)
    requires |results| > 0
    requires Average(init, results, mode).Success?
    ensures var d := Average(init, results, mode).value;
              && (k in d <==> k in init || InSome(results, k))
              && (InSome(results, k) ==>
                    && d[k].Keys == Fields(mode)
                    && forall f :: f in Fields(mode) ==> d[k][f] == Mean(init, results, mode, k, f))
              && (k in init && !InSome(results, k) ==> d[k] == DivideRecord(init[k], |results|, mode))
  {
    AverageMentioned(init, results, mode, k);
    if k in init && !InSome(results, k) {
      AverageUntouched(init, results, mode, k);
    }
  }

  /** The categories the results mention, as `AverageValueAt` states them. */
  lemma AverageMentioned(init: Table, results: seq<Table>, mode: Mode, k: string)
    requires |results| > 0
    requires Average(init, results, mode).Success?
    ensures var d := Average(init, results, mode).value;
              && (k in d <==> k in init || InSome(results, k))
              && (InSome(results, k) ==>
                    && d[k].Keys == Fields(mode)
                    && forall f :: f in Fields(mode) ==> d[k][f] == Mean(init, results, mode, k, f))
  {
    AverageIsDivide(init, results, mode);
    var t := Fold(init, results, mode).value;
    FoldValueAt(init, results, mode, k);
    DivideAllAt(t, |results|, mode, k);
  }

  /** A category only the container holds is divided like any other. */
  lemma AverageUntouched(init: Table, results: seq<Table>, mode: Mode, k: string)
    requires |results| > 0
    requires Average(init, results, mode).Success?
    requires k in init && !InSome(results, k)
    ensures var d := Average(init, results, mode).value;
              k in d && d[k] == DivideRecord(init[k], |results|, mode)
  {
    AverageIsDivide(init, results, mode);
    var t := Fold(init, results, mode).value;
    FoldValueAt(init, results, mode, k);
    DivideAllAt(t, |results|, mode, k);
  }

  /** The division step fails when an averaged field is missing, and
      otherwise keeps every category and field and divides the averaged
      fields by `n`. */
  lemma DivideAllSpec(t: Table, n: nat, mode: Mode)
    requires n > 0
    ensures DivideAll(t, n, mode).Success? <==> forall k :: k in t ==> HasFields(t[k], Averaged(mode))
  {
  }

  lemma DivideAllAt(t: Table, n: nat, mode: Mode, k: string)
    requires n > 0 && DivideAll(t, n, mode).Success?
    ensures var d := DivideAll(t, n, mode).value;
              && (k in d <==> k in t)
              && (k in t ==> d[k] == DivideRecord(t[k], n, mode))
              && (k in t ==> d[k].Keys == t[k].Keys)
              && (k in t ==> forall f :: f in t[k] ==>
                    d[k][f] == if f in Averaged(mode) then t[k][f] / n as real else t[k][f])
  {
  }

  /** The final value of field `f` of category `k`: the container's value
      plus the sum over the results, divided by the number of results when
      the field is averaged. */
  function Mean(init: Table, results: seq<Table>, mode: Mode, k: string, f: string): real
    requires |results| > 0
  {
    var sum := Field(Current(init, k, mode), f) + Total(results, k, f);
    if f in Averaged(mode) then sum / |results| as real else sum
  }

  /** As written, a list of tagging-accuracy tables is rejected: its
      categories are not named `accuracy`, so the fold reads `fscore`
      from records that do not have it. */
  lemma AccuracyRecordsRejected()
    ensures FromResultsList(map[], [map["NP" := map["accuracy" := 0.9, "all" := 10.0, "correct" := 9.0]]])
            == Failure(MissingField)
  {
    var rec := map["accuracy" := 0.9, "all" := 10.0, "correct" := 9.0];
    var first: Table := map["NP" := rec];
    assert "accuracy" !in first;
    assert "fscore" !in rec;
    assert !HasFields(first["NP"], Fields(ScoreMode));
    assert AddResult(map[], first, ScoreMode) == Failure(MissingField);
    assert Fold(map[], [first], ScoreMode) == Failure(MissingField);
  }

  /** With the layout read from the records, tagging-accuracy tables are
      averaged: `accuracy` is the mean over all results and `all` and
      `correct` are sums. */
  lemma AccuracyRecordsAveraged(results: seq<Table>)
    requires |results| > 0 && |results[0]| > 0
    requires forall i, k :: 0 <= i < |results| && k in results[i] ==> HasFields(results[i][k], Fields(AccuracyMode))
    ensures var r := FromResultsListByRecord(map[], results);
              && r.Success?
              && (forall k :: k in r.value <==> InSome(results, k))
              && forall k :: InSome(results, k) ==>
                   && r.value[k].Keys == {"accuracy", "all", "correct"}
                   && r.value[k]["accuracy"] == Total(results, k, "accuracy") / |results| as real
                   && r.value[k]["all"] == Total(results, k, "all")
                   && r.value[k]["correct"] == Total(results, k, "correct")
  {
    var mode := AccuracyMode;
    var k0 :| k0 in results[0];
    assert "accuracy" in results[0][k0] by {
      assert HasFields(results[0][k0], Fields(mode));
    }
    assert ModeByRecord(results[0]) == mode;
    var r := FromResultsListByRecord(map[], results);
    assert r == Average(map[], results, mode);
    ZeroFields(mode);
    assert Complete(map[], results, mode);
    AverageSucceeds(map[], results, mode);
    forall k
      ensures k in r.value <==> InSome(results, k)
      ensures InSome(results, k) ==>
                && r.value[k].Keys == {"accuracy", "all", "correct"}
                && r.value[k]["accuracy"] == Total(results, k, "accuracy") / |results| as real
                && r.value[k]["all"] == Total(results, k, "all")
                && r.value[k]["correct"] == Total(results, k, "correct")
    {
      AverageMentioned(map[], results, mode, k);
      if InSome(results, k) {
        assert Current(map[], k, mode) == Zero(mode);
        assert "all" !in Averaged(mode) && "correct" !in Averaged(mode);
        assert r.value[k]["all"] == Mean(map[], results, mode, k, "all");
        assert r.value[k]["correct"] == Mean(map[], results, mode, k, "correct");
      }
    }
  }

  /** The zero record carries exactly the mode's fields, each `0`. */
  lemma ZeroFields(mode: Mode)
    ensures Zero(mode).Keys == Fields(mode)
    ensures forall f :: Field(Zero(mode), f) == 0.0
  {
  }

  /** Chunking-score tables are averaged as written (no category may be
      named `accuracy`): every field of every category is its sum over the
      results that contain the category, divided by the number of ALL
      results. */
  lemma ScoreRecordsAveraged(results: seq<Table>)
    requires |results| > 0 && "accuracy" !in results[0]
    requires forall i, k :: 0 <= i < |results| && k in results[i] ==> HasFields(results[i][k], Fields(ScoreMode))
    ensures var r := FromResultsList(map[], results);
              && r.Success?
              && (forall k :: k in r.value <==> InSome(results, k))
              && forall k :: InSome(results, k) ==>
                   && r.value[k].Keys == {"fscore", "precision", "recall"}
                   && forall f :: f in r.value[k] ==> r.value[k][f] == Total(results, k, f) / |results| as real
  {
    var mode := ScoreMode;
    var r := FromResultsList(map[], results);
    assert r == Average(map[], results, mode);
    ZeroFields(mode);
    assert Complete(map[], results, mode);
    AverageSucceeds(map[], results, mode);
    forall k
      ensures k in r.value <==> InSome(results, k)
      ensures InSome(results, k) ==>
                && r.value[k].Keys == {"fscore", "precision", "recall"}
                && forall f :: f in r.value[k] ==> r.value[k][f] == Total(results, k, f) / |results| as real
    {
      AverageMentioned(map[], results, mode, k);
      if InSome(results, k) {
        assert Current(map[], k, mode) == Zero(mode);
      }
    }
  }

  /** A category present in only one of two results is still divided by
      two: an `fscore` of 80 in one run and no entry in the other averages
      to 40. */
  lemma MissingCategoryHalved()
    ensures var rec := map["fscore" := 80.0, "precision" := 80.0, "recall" := 80.0];
            var r := FromResultsList(map[], [map["NP" := rec], map[]]);
            r.Success? && r.value["NP"]["fscore"] == 40.0
  {
    var rec := map["fscore" := 80.0, "precision" := 80.0, "recall" := 80.0];
    var results: seq<Table> := [map["NP" := rec], map[]];
    ScoreRecordsAveraged(results);
    assert InSome(results, "NP");
    assert Total(results[1..], "NP", "fscore") == 0.0;
  }
}

=== FILE: chunking.dfy ===
/** The chunk extractor `df2chunkset`: two independent passes over the rows
    of a tagged data frame, one cutting the gold tag column into chunks and
    one cutting the guess tag column.

    The extractor is modelled twice: `Df2ChunkSet` is the source's single
    loop with an open chunk per column, and `Extract` is a closed-form
    reference in which the chunk opened by boundary row `j` is the maximal run
    of rows `j, j+1, ...` up to the next boundary row.
 */
module Chunking {
  import opened Common

  /** One data-frame row: the gold tag column and the guess tag column.
      The row's index is its position in the frame. */
  datatype Row = Row(goldTag: string, guessTag: string)
  {
    function Tag(side: Side): string
    {
      if side == Gold then goldTag else guessTag
    }
  }

  /** The gold chunk set and the guess chunk set, in that order. */
  datatype ChunkSets = ChunkSets(gold: set<Chunk>, guess: set<Chunk>)

  /** A tag opens a new chunk when its first character is `B`, `O` or `S`;
      any other first character continues the open chunk. */
  predicate IsBoundary(tag: string)
  {
    |tag| > 0 && tag[0] in "BOS"
  }

  /** The tags of one column, in row order. */
  function Column(rows: seq<Row>, side: Side): seq<string>
  {
    seq(|rows|, i requires 0 <= i < |rows| => rows[i].Tag(side))
  }

  /** The `(index, tag)` tokens of one column, in row order. */
  function Tokens(tags: seq<string>): seq<Token>
  {
    seq(|tags|, k requires 0 <= k < |tags| => TagToken(k, tags[k]))
  }

  /** The row index and the tag of an extracted token. */
  function IndexOf(t: Token): int
  {
    if |t| > 0 && t[0].Int? then t[0].i else -1
  }

  function TagOf(t: Token): string
  {
    if |t| > 1 && t[1].Str? then t[1].s else ""
  }

  /** One past the last row of the run that starts at row `j`: the next
      boundary row after `j`, or the end of the column. */
  function RunEnd(tags: seq<string>, j: nat): (e: nat)
    requires j < |tags|
    ensures j < e <= |tags|
    ensures forall k :: j < k < e ==> !IsBoundary(tags[k])
    ensures e == |tags| || IsBoundary(tags[e])
    decreases |tags| - j
  {
    if j + 1 == |tags| || IsBoundary(tags[j + 1]) then j + 1 else RunEnd(tags, j + 1)
  }

  /** The chunk that starts at row `j`. */
  function Run(tags: seq<string>, j: nat): Chunk
    requires j < |tags|
  {
    Tokens(tags)[j..RunEnd(tags, j)]
  }

  /** The chunks opened by the boundary rows in `[lo, hi)`. */
  function RunsBetween(tags: seq<string>, lo: nat, hi: nat): set<Chunk>
    requires lo <= hi <= |tags|
  {
    set j | lo <= j < hi && IsBoundary(tags[j]) :: Run(tags, j)
  }

  /** The chunk set one pass produces from a column. */
  function Chunks(tags: seq<string>): set<Chunk>
  {
    RunsBetween(tags, 0, |tags|)
  }

  /** What `df2chunkset` needs to succeed: a first row, whose two tags open
      chunks, and no empty tag in any later row. */
  predicate WellFormed(rows: seq<Row>)
  {
    && |rows| > 0
    && IsBoundary(rows[0].goldTag)
    && IsBoundary(rows[0].guessTag)
    && forall i :: 0 < i < |rows| ==> rows[i].goldTag != "" && rows[i].guessTag != ""
  }

  /** The closed-form extractor, with the source's error order: the first
      row's gold tag, then its guess tag, then row by row the gold tag before
      the guess tag. */
  function Extract(rows: seq<Row>): (r: Result<ChunkSets>)
    ensures r.Success? <==> WellFormed(rows)
    ensures r.Success? ==> r.value == ChunkSets(Chunks(Column(rows, Gold)), Chunks(Column(rows, Guess)))
    ensures |rows| == 0 ==> r == Failure(EmptyInput)
    ensures |rows| > 0 && rows[0].goldTag != "" && !IsBoundary(rows[0].goldTag) ==>
              r == Failure(InvalidFirstTag(Gold))
    ensures |rows| > 0 && IsBoundary(rows[0].goldTag) && rows[0].guessTag != "" && !IsBoundary(rows[0].guessTag) ==>
              r == Failure(InvalidFirstTag(Guess))
    ensures |rows| > 0 && rows[0].goldTag == "" ==> r == Failure(EmptyTag(0, Gold))
    ensures |rows| > 0 && IsBoundary(rows[0].goldTag) && rows[0].guessTag == "" ==>
              r == Failure(EmptyTag(0, Guess))
    ensures |rows| > 0 && IsBoundary(rows[0].goldTag) && IsBoundary(rows[0].guessTag) ==>
              r == ScanTags(rows, 1)
    ensures r.Failure? && r.error.EmptyTag? ==>
              && r.error.row < |rows|
              && rows[r.error.row].Tag(r.error.side) == ""
              && (r.error.side == Guess ==> rows[r.error.row].goldTag != "")
              && forall k :: 0 <= k < r.error.row ==> rows[k].goldTag != "" && rows[k].guessTag != ""
  {
    if |rows| == 0 then Failure(EmptyInput)
    else if rows[0].goldTag == "" then Failure(EmptyTag(0, Gold))
    else if !IsBoundary(rows[0].goldTag) then Failure(InvalidFirstTag(Gold))
    else if rows[0].guessTag == "" then Failure(EmptyTag(0, Guess))
    else if !IsBoundary(rows[0].guessTag) then Failure(InvalidFirstTag(Guess))
    else ScanTags(rows, 1)
  }

  /** Rows `i..` after the first: an empty tag fails with `IndexError`. */
  function ScanTags(rows: seq<Row>, i: nat): (r: Result<ChunkSets>)
    requires 1 <= i <= |rows|
    ensures r.Success? <==> forall k :: i <= k < |rows| ==> rows[k].goldTag != "" && rows[k].guessTag != ""
    ensures r.Success? ==> r.value == ChunkSets(Chunks(Column(rows, Gold)), Chunks(Column(rows, Guess)))
    ensures r.Failure? ==>
              && r.error.EmptyTag?
              && i <= r.error.row < |rows|
              && rows[r.error.row].Tag(r.error.side) == ""
              && (r.error.side == Guess ==> rows[r.error.row].goldTag != "")
              && forall k :: i <= k < r.error.row ==> rows[k].goldTag != "" && rows[k].guessTag != ""
    decreases |rows| - i
  {
    if i == |rows| then Success(ChunkSets(Chunks(Column(rows, Gold)), Chunks(Column(rows, Guess))))
    else if rows[i].goldTag == "" then Failure(EmptyTag(i, Gold))
    else if rows[i].guessTag == "" then Failure(EmptyTag(i, Guess))
    else ScanTags(rows, i + 1)
  }

  /** The state of one pass after rows `[0, i)`: the chunk opened at row
      `start` is still open, and every earlier chunk has been emitted. */
  ghost predicate PassState(tags: seq<string>, i: nat, done: set<Chunk>, open: Chunk, start: nat)
  {
    && start < i <= |tags|
    && IsBoundary(tags[start])
    && (forall k :: start < k < i ==> !IsBoundary(tags[k]))
    && open == Tokens(tags)[start..i]
    && done == RunsBetween(tags, 0, start)
  }

  /** `df2chunkset` as written: one loop over the rows, each pass keeping an
      open chunk that a boundary tag closes and replaces. */
  method Df2ChunkSet(rows: seq<Row>) returns (r: Result<ChunkSets>)
    ensures r == Extract(rows)
  {
    if |rows| == 0 {
      return Failure(EmptyInput);
    }
    var first := rows[0];
    if first.goldTag == "" {
      return Failure(EmptyTag(0, Gold));
    }
    if !IsBoundary(first.goldTag) {
      return Failure(InvalidFirstTag(Gold));
    }
    if first.guessTag == "" {
      return Failure(EmptyTag(0, Guess));
    }
    if !IsBoundary(first.guessTag) {
      return Failure(InvalidFirstTag(Guess));
    }
    r := ScanRows(rows);
  }

  /** The loop over rows `1..` of `df2chunkset`, once the first row has
      passed its checks. */
  method ScanRows(rows: seq<Row>) returns (r: Result<ChunkSets>)
    requires |rows| > 0 && IsBoundary(rows[0].goldTag) && IsBoundary(rows[0].guessTag)
    ensures r == ScanTags(rows, 1)
  {
    var first := rows[0];
    ghost var goldTags := Column(rows, Gold);
    ghost var guessTags := Column(rows, Guess);
    var goldDone: set<Chunk>, guessDone: set<Chunk> := {}, {};
    var goldOpen: Chunk, guessOpen: Chunk := [TagToken(0, first.goldTag)], [TagToken(0, first.guessTag)];
    ghost var goldStart: nat, guessStart: nat := 0, 0;
    var i := 1;
    while i < |rows|
      invariant 1 <= i <= |rows|
      invariant ScanTags(rows, 1) == ScanTags(rows, i)
      invariant PassState(goldTags, i, goldDone, goldOpen, goldStart)
      invariant PassState(guessTags, i, guessDone, guessOpen, guessStart)
    {
      var row := rows[i];
      if row.goldTag == "" {
        return Failure(EmptyTag(i, Gold));
      }
      goldDone, goldOpen, goldStart := ChunkStep(goldTags, i, row.goldTag, goldDone, goldOpen, goldStart);
      if row.guessTag == "" {
        return Failure(EmptyTag(i, Guess));
      }
      guessDone, guessOpen, guessStart := ChunkStep(guessTags, i, row.guessTag, guessDone, guessOpen, guessStart);
      i := i + 1;
    }
    CloseRun(goldTags, goldStart, i);
    CloseRun(guessTags, guessStart, i);
    r := Success(ChunkSets(goldDone + {goldOpen}, guessDone + {guessOpen}));
  }

  /** One row of one pass: a boundary tag emits the open chunk and opens a
      new one at row `i`; any other tag appends row `i` to the open chunk. */
  method ChunkStep(ghost tags: seq<string>, i: nat, tag: string, done: set<Chunk>, open: Chunk, ghost start: nat)
    returns (done': set<Chunk>, open': Chunk, ghost start': nat)
    requires i < |tags| && tags[i] == tag && tag != ""
    requires PassState(tags, i, done, open, start)
    ensures PassState(tags, i + 1, done', open', start')
    ensures IsBoundary(tags[i]) <==> done' == done + {open} && open' == [TagToken(i, tags[i])]
    ensures !IsBoundary(tags[i]) ==> done' == done && |open'| == |open| + 1
  {
    if IsBoundary(tag) {
      CloseRun(tags, start, i);
      done', open', start' := done + {open}, [TagToken(i, tag)], i;
    } else {
      done', open', start' := done, open + [TagToken(i, tag)], start;
    }
  }

  /** A run ends exactly at the first boundary after its start. */
  lemma RunEndAt(tags: seq<string>, s: nat, e: nat)
    requires s < e <= |tags|
    requires forall k :: s < k < e ==> !IsBoundary(tags[k])
    requires e == |tags| || IsBoundary(tags[e])
    ensures RunEnd(tags, s) == e
  {
  }

  /** Closing the chunk open since row `s` at boundary (or end) `i` emits the
      run of row `s`, which completes the chunks of the boundaries before `i`. */
  lemma CloseRun(tags: seq<string>, s: nat, i: nat)
    requires s < i <= |tags|
    requires IsBoundary(tags[s])
    requires forall k :: s < k < i ==> !IsBoundary(tags[k])
    requires i == |tags| || IsBoundary(tags[i])
    ensures RunsBetween(tags, 0, s) + {Tokens(tags)[s..i]} == RunsBetween(tags, 0, i)
  {
    RunEndAt(tags, s, i);
    assert Run(tags, s) == Tokens(tags)[s..i];
    forall c | c in RunsBetween(tags, 0, i)
      ensures c in RunsBetween(tags, 0, s) + {Run(tags, s)}
    {
      var j :| 0 <= j < i && IsBoundary(tags[j]) && c == Run(tags, j);
      if j != s {
        assert j < s;
      }
    }
  }

  /** The chunks of a column in the order of their opening rows, starting
      with the run of row `j`. */
  function RunsFrom(tags: seq<string>, j: nat): seq<Chunk>
    requires j <= |tags|
    decreases |tags| - j
  {
    if j == |tags| then [] else [Run(tags, j)] + RunsFrom(tags, RunEnd(tags, j))
  }

  /** The concatenation of a sequence of chunks. */
  function Flatten(cs: seq<Chunk>): seq<Token>
  {
    if cs == [] then [] else cs[0] + Flatten(cs[1..])
  }

  function Elems(cs: seq<Chunk>): set<Chunk>
  {
    set c | c in cs
  }

  predicate NoDuplicates(cs: seq<Chunk>)
  {
    cs == [] || (cs[0] !in cs[1..] && NoDuplicates(cs[1..]))
  }

  /** The number of boundary rows in `[j, |tags|)`. */
  function BoundariesFrom(tags: seq<string>, j: nat): nat
    requires j <= |tags|
    decreases |tags| - j
  {
    if j == |tags| then 0 else (if IsBoundary(tags[j]) then 1 else 0) + BoundariesFrom(tags, j + 1)
  }

  lemma {:induction false} NoBoundariesBetween(tags: seq<string>, k: nat, e: nat)
    requires k <= e <= |tags|
    requires forall m :: k <= m < e ==> !IsBoundary(tags[m])
    ensures BoundariesFrom(tags, k) == BoundariesFrom(tags, e)
    decreases e - k
  {
    if k < e {
      NoBoundariesBetween(tags, k + 1, e);
    }
  }

  /** Every chunk emitted from row `j` on is non-empty and starts at a row
      no earlier than `j`. */
  lemma {:induction false} RunsFromStartAfter(tags: seq<string>, j: nat)
    requires j <= |tags|
    ensures forall c :: c in RunsFrom(tags, j) ==> |c| > 0 && j <= IndexOf(c[0])
    decreases |tags| - j
  {
    if j < |tags| {
      var e := RunEnd(tags, j);
      RunsFromStartAfter(tags, e);
      assert RunsFrom(tags, j) == [Run(tags, j)] + RunsFrom(tags, e);
    }
  }

  lemma {:induction false} RunsFromFlatten(tags: seq<string>, j: nat)
    requires j <= |tags|
    ensures Flatten(RunsFrom(tags, j)) == Tokens(tags)[j..]
    decreases |tags| - j
  {
    if j < |tags| {
      var e := RunEnd(tags, j);
      var ts, rest := Tokens(tags), RunsFrom(tags, e);
      RunsFromFlatten(tags, e);
      assert RunsFrom(tags, j) == [ts[j..e]] + rest;
      assert ([ts[j..e]] + rest)[1..] == rest;
      assert Flatten(RunsFrom(tags, j)) == ts[j..e] + Flatten(rest);
      assert ts[j..] == ts[j..e] + ts[e..];
    }
  }

  lemma {:induction false} RunsFromNoDuplicates(tags: seq<string>, j: nat)
    requires j <= |tags|
    ensures NoDuplicates(RunsFrom(tags, j))
    decreases |tags| - j
  {
    if j < |tags| {
      var e := RunEnd(tags, j);
      RunsFromNoDuplicates(tags, e);
      RunsFromStartAfter(tags, e);
      assert RunsFrom(tags, j)[1..] == RunsFrom(tags, e);
      assert IndexOf(Run(tags, j)[0]) == j;
    }
  }

  lemma {:induction false} RunsFromCount(tags: seq<string>, j: nat)
    requires j <= |tags|
    requires j == |tags| || IsBoundary(tags[j])
    ensures |RunsFrom(tags, j)| == BoundariesFrom(tags, j)
    decreases |tags| - j
  {
    if j < |tags| {
      var e := RunEnd(tags, j);
      RunsFromCount(tags, e);
      NoBoundariesBetween(tags, j + 1, e);
    }
  }

  /** The chunks emitted from a boundary row `j` on are exactly the runs of
      the boundary rows from `j` on. */
  lemma {:induction false} RunsFromElems(tags: seq<string>, j: nat)
    requires j <= |tags|
    requires j == |tags| || IsBoundary(tags[j])
    ensures Elems(RunsFrom(tags, j)) == RunsBetween(tags, j, |tags|)
    decreases |tags| - j
  {
    if j < |tags| {
      var e := RunEnd(tags, j);
      RunsFromElems(tags, e);
      assert Elems(RunsFrom(tags, j)) == {Run(tags, j)} + Elems(RunsFrom(tags, e));
      forall c | c in RunsBetween(tags, j, |tags|)
        ensures c in Elems(RunsFrom(tags, j))
      {
        var i :| j <= i < |tags| && IsBoundary(tags[i]) && c == Run(tags, i);
        if i != j {
          assert c in RunsBetween(tags, e, |tags|);
        }
      }
    }
  }

  /** Elements of a duplicate-free sequence are as many as its length. */
  lemma {:induction false} ElemsNoDuplicates(cs: seq<Chunk>)
    requires NoDuplicates(cs)
    ensures |Elems(cs)| == |cs|
  {
    if cs != [] {
      ElemsNoDuplicates(cs[1..]);
      assert Elems(cs) == {cs[0]} + Elems(cs[1..]);
    }
  }

  /** Partition of one column (the property the extractor exists for):
      concatenating the emitted chunks in the order of their opening rows
      gives back the column's `(index, tag)` list, no chunk is emitted twice,
      and the chunk set has one chunk per boundary row. */
  lemma Partition(tags: seq<string>)
    requires |tags| > 0 && IsBoundary(tags[0])
    ensures Flatten(RunsFrom(tags, 0)) == Tokens(tags)
    ensures NoDuplicates(RunsFrom(tags, 0))
    ensures Elems(RunsFrom(tags, 0)) == Chunks(tags)
    ensures |Chunks(tags)| == |RunsFrom(tags, 0)| == BoundariesFrom(tags, 0)
  {
    RunsFromFlatten(tags, 0);
    RunsFromNoDuplicates(tags, 0);
    RunsFromElems(tags, 0);
    RunsFromCount(tags, 0);
    ElemsNoDuplicates(RunsFrom(tags, 0));
  }

  /** The run of row `j` covers rows `j..RunEnd(tags, j)` with their tags. */
  lemma RunTokens(tags: seq<string>, j: nat)
    requires j < |tags|
    ensures |Run(tags, j)| == RunEnd(tags, j) - j
    ensures forall k :: 0 <= k < |Run(tags, j)| ==>
              && Run(tags, j)[k] == TagToken(j + k, tags[j + k])
              && IndexOf(Run(tags, j)[k]) == j + k
              && TagOf(Run(tags, j)[k]) == tags[j + k]
  {
  }

  /** Every extracted chunk is the run of some boundary row. */
  lemma Opener(tags: seq<string>, c: Chunk) returns (j: nat)
    requires c in Chunks(tags)
    ensures j < |tags| && IsBoundary(tags[j]) && c == Run(tags, j)
  {
    j :| 0 <= j < |tags| && IsBoundary(tags[j]) && c == Run(tags, j);
  }

  /** The shape of every extracted chunk: non-empty, opened by a boundary
      tag, continued only by non-boundary tags, covering consecutive rows with
      their own tags, and ending just before the next boundary row or at the
      end of the column. */
  lemma ChunkShape(tags: seq<string>, c: Chunk)
    requires c in Chunks(tags)
    ensures |c| > 0 && IsBoundary(TagOf(c[0]))
    ensures forall k :: 0 <= k < |c| ==>
              && 0 <= IndexOf(c[k]) == IndexOf(c[0]) + k < |tags|
              && c[k] == TagToken(IndexOf(c[k]), tags[IndexOf(c[k])])
    ensures forall k :: 0 < k < |c| ==> !IsBoundary(TagOf(c[k]))
    ensures IndexOf(c[|c| - 1]) + 1 == |tags| || IsBoundary(tags[IndexOf(c[|c| - 1]) + 1])
  {
    var j := Opener(tags, c);
    var e := RunEnd(tags, j);
    RunTokens(tags, j);
    assert |c| == e - j > 0;
    forall k | 0 <= k < |c|
      ensures 0 <= IndexOf(c[k]) == IndexOf(c[0]) + k < |tags|
      ensures c[k] == TagToken(IndexOf(c[k]), tags[IndexOf(c[k])])
    {
      assert c[k] == TagToken(j + k, tags[j + k]);
      assert IndexOf(c[k]) == j + k;
    }
    forall k | 0 < k < |c|
      ensures !IsBoundary(TagOf(c[k]))
    {
      assert TagOf(c[k]) == tags[j + k];
    }
    assert TagOf(c[0]) == tags[j];
    assert IndexOf(c[|c| - 1]) + 1 == e;
  }

  /** The two passes are independent: a column that differs only in where
      the guess tags open chunks gives one gold chunk but two guess chunks. */
  lemma PassesMayDisagree()
    ensures var r := Extract([Row("B-NP", "B-NP"), Row("I-NP", "B-NP")]);
              r.Success? && |r.value.gold| == 1 && |r.value.guess| == 2
  {
    var rows := [Row("B-NP", "B-NP"), Row("I-NP", "B-NP")];
    assert IsBoundary(rows[0].goldTag) && !IsBoundary(rows[1].goldTag) && IsBoundary(rows[1].guessTag);
    Partition(Column(rows, Gold));
    Partition(Column(rows, Guess));
  }

  /** An empty tag after a valid first row is an `IndexError` at that row,
      in the gold column when that is the empty one. */
  lemma LaterEmptyTag()
    ensures Extract([Row("B", "B"), Row("", "B")]) == Failure(EmptyTag(1, Gold))
  {
  }
}

=== FILE: common.dfy ===
/** Values shared by the chunk extractor, the scorer and the result
    accumulator of the BIO chunk evaluator.

    A token is a Python tuple: a sequence of cells, each an integer (the row
    index) or a string (a feature or a tag). A chunk is a tuple of tokens and a
    chunk set is a Python `set` of chunks.
 */
module Common {

  /** Success or failure; the failure carries the exception the source raises. */
  datatype Result<+T> = Success(value: T) | Failure(error: Error)

  /** One cell of a token tuple. */
  datatype Cell = Int(i: int) | Str(s: string)

  type Token = seq<Cell>

  type Chunk = seq<Token>

  /** Which tag column a chunk pass reads. */
  datatype Side = Gold | Guess

  /** The exceptions the modelled code raises, named by cause. */
  datatype Error =
    | EmptyInput                               // IndexError: `df.iloc[0]` on an empty frame
    | EmptyTag(row: nat, side: Side)           // IndexError: `tag[0]` on an empty tag
    | InvalidFirstTag(side: Side)              // ValueError: first tag does not open a chunk
    | TokenCountMismatch(gold: nat, guess: nat) // AssertionError: flattened lengths differ
    | MissingColumn                            // IndexError: `x[0][chunk_col]` out of range
    | ZeroDivision                             // ZeroDivisionError in a score ratio
    | EmptyResults                             // IndexError: `results[0]` on an empty list
    | MissingField                             // KeyError: a score record lacks a field

  /** The `(f1, precision, recall)` triple, as unrounded percentages. */
  datatype Score = Score(f1: real, precision: real, recall: real)

  /** The `(index, tag)` token the extractor builds for one row. */
  function TagToken(index: int, tag: string): Token
  {
    [Int(index), Str(tag)]
  }
}

=== FILE: evaldf.dfy ===
/** `evaluate_df`: extract the gold and guess chunk sets from the rows, then
    score them with the tag in column 1 of every `(index, tag)` token. */
module EvalDf {
  import opened Common
  import opened Chunking
  import opened Scoring

  /** A duplicate-free sequence of chunks and the set of its elements
      flatten to the same number of tokens. */
  lemma {:induction false} TokenCountElems(cs: seq<Chunk>)
    requires NoDuplicates(cs)
    ensures TokenCount(Elems(cs)) == |Flatten(cs)|
  {
    if cs != [] {
      TokenCountElems(cs[1..]);
      assert Elems(cs) - {cs[0]} == Elems(cs[1..]);
      TokenCountRemove(Elems(cs), cs[0]);
    }
  }

  /** Each pass flattens to exactly one token per row. */
  lemma ChunksTokenCount(tags: seq<string>)
    requires |tags| > 0 && IsBoundary(tags[0])
    ensures TokenCount(Chunks(tags)) == |tags|
  {
    Partition(tags);
    TokenCountElems(RunsFrom(tags, 0));
  }

  /** Every extracted chunk has a tag cell in column 1, and that cell is
      `'O'` exactly when the chunk's opening row is tagged `O`. */
  lemma ChunksTagColumn(tags: seq<string>)
    ensures AllHaveColumn(Chunks(tags), 1)
    ensures forall j :: 0 <= j < |tags| && IsBoundary(tags[j]) ==>
              && Run(tags, j) in Chunks(tags)
              && HasColumn(Run(tags, j), 1)
              && (IsOutside(Run(tags, j), 1) <==> tags[j] == "O")
  {
    forall c | c in Chunks(tags)
      ensures HasColumn(c, 1)
    {
      ChunkShape(tags, c);
    }
    forall j | 0 <= j < |tags| && IsBoundary(tags[j])
      ensures Run(tags, j) in Chunks(tags) && HasColumn(Run(tags, j), 1)
      ensures IsOutside(Run(tags, j), 1) <==> tags[j] == "O"
    {
      RunTokens(tags, j);
    }
  }

  /** A labelled chunk is common to both passes exactly when some boundary
      row, tagged other than `O`, opens the same run in both columns. */
  lemma CommonLabelledChunk(rows: seq<Row>)
    requires WellFormed(rows)
    ensures var gold, guess := Chunks(Column(rows, Gold)), Chunks(Column(rows, Guess));
              (exists c :: c in gold && c in guess && HasColumn(c, 1) && !IsOutside(c, 1))
              <==>
              (exists j :: 0 <= j < |rows| && MatchedAt(rows, j))
  {
    var goldTags, guessTags := Column(rows, Gold), Column(rows, Guess);
    var gold, guess := Chunks(goldTags), Chunks(guessTags);
    ChunksTagColumn(goldTags);
    if c :| c in gold && c in guess && HasColumn(c, 1) && !IsOutside(c, 1) {
      var j := Opener(goldTags, c);
      var j' := Opener(guessTags, c);
      RunTokens(goldTags, j);
      RunTokens(guessTags, j');
      assert j == j';
      assert MatchedAt(rows, j);
    }
  }

  /** Boundary row `j` opens a labelled gold chunk that the guess column
      reproduces token for token. */
  ghost predicate MatchedAt(rows: seq<Row>, j: nat)
    requires j < |rows|
  {
    var goldTags, guessTags := Column(rows, Gold), Column(rows, Guess);
    && IsBoundary(rows[j].goldTag)
    && IsBoundary(rows[j].guessTag)
    && rows[j].goldTag != "O"
    && Run(goldTags, j) == Run(guessTags, j)
  }

  /** `evaluate_df`: the extractor's error, or `evaluate` with column 1.
      Since both passes flatten to one token per row, the token-count
      assertion and the column lookup never fail here. */
  ghost function EvaluateDf(rows: seq<Row>): (r: Result<Score>)
    ensures r.Failure? ==> !r.error.TokenCountMismatch? && r.error != MissingColumn
    ensures r.Failure? && !WellFormed(rows) ==> r == Failure(Extract(rows).error)
    ensures WellFormed(rows) && r.Failure? ==> r.error == ZeroDivision
    ensures r.Success? <==> WellFormed(rows) && exists j :: 0 <= j < |rows| && MatchedAt(rows, j)
    ensures r.Success? ==>
              && 0.0 < r.value.precision <= 100.0
              && 0.0 < r.value.recall <= 100.0
              && 0.0 < r.value.f1 <= 100.0
  {
    var x := Extract(rows);
    if x.Failure? then Failure(x.error)
    else
      var goldTags, guessTags := Column(rows, Gold), Column(rows, Guess);
      ChunksTokenCount(goldTags);
      ChunksTokenCount(guessTags);
      ChunksTagColumn(goldTags);
      ChunksTagColumn(guessTags);
      CommonLabelledChunk(rows);
      Evaluate(x.value.gold, x.value.guess, 1)
  }

  /** Identity: when every row's guess tag equals its gold tag and some
      boundary row is tagged other than `O`, all three scores are 100. */
  lemma EvaluateDfIdentity(rows: seq<Row>)
    requires WellFormed(rows)
    requires forall i :: 0 <= i < |rows| ==> rows[i].guessTag == rows[i].goldTag
    requires exists j :: 0 <= j < |rows| && IsBoundary(rows[j].goldTag) && rows[j].goldTag != "O"
    ensures EvaluateDf(rows) == Success(Score(100.0, 100.0, 100.0))
  {
    var tags := Column(rows, Gold);
    assert Column(rows, Guess) == tags;
    var j :| 0 <= j < |rows| && IsBoundary(rows[j].goldTag) && rows[j].goldTag != "O";
    ChunksTagColumn(tags);
    assert Run(tags, j) in Chunks(tags) && !IsOutside(Run(tags, j), 1);
    EvaluateIdentity(Chunks(tags), 1);
  }
}

=== FILE: scoring.dfy ===
/** The chunk scorer: `get_ncor` and `evaluate` of the core module and
    `fscore` of the utilities module.

    Scores are exact reals in place of Python floats, and are the unrounded
    percentages `evaluate` returns with `do_round=False`.
 */
module Scoring {
  import opened Common

  /** Some chunk of a non-empty chunk set. */
  ghost function Pick(s: set<Chunk>): (c: Chunk)
    requires s != {}
    ensures c in s
  {
    var c :| c in s; c
  }

  /** The length of the flattened token list `[x for y in s for x in y]`. */
  ghost function TokenCount(s: set<Chunk>): nat
    decreases s
  {
    if s == {} then 0 else var c := Pick(s); |c| + TokenCount(s - {c})
  }

  /** The flattened length does not depend on which chunk is taken first. */
  lemma {:induction false} TokenCountRemove(s: set<Chunk>, c: Chunk)
    requires c in s
    ensures TokenCount(s) == |c| + TokenCount(s - {c})
    decreases s
  {
    var d := Pick(s);
    if d != c {
      TokenCountRemove(s - {d}, c);
      TokenCountRemove(s - {c}, d);
      assert s - {d} - {c} == s - {c} - {d};
    }
  }

  /** Flattening a chunk set in whatever order the set is iterated: the
      count is always the same. */
  method CountTokens(s: set<Chunk>) returns (n: nat)
    ensures n == TokenCount(s)
  {
    n := 0;
    var rest := s;
    while rest != {}
      invariant rest <= s
      invariant n + TokenCount(rest) == TokenCount(s)
      decreases rest
    {
      var c :| c in rest;
      TokenCountRemove(rest, c);
      n := n + |c|;
      rest := rest - {c};
    }
  }

  /** `x[0][chunk_col]` is defined: the chunk has a first token and the
      token has that column. */
  predicate HasColumn(c: Chunk, col: nat)
  {
    |c| > 0 && col < |c[0]|
  }

  /** A chunk is excluded from scoring exactly when its first token's tag
      cell is the string `'O'`; `'O-X'`, `'.'` or an integer cell are not. */
  predicate IsOutside(c: Chunk, col: nat)
    requires HasColumn(c, col)
  {
    c[0][col] == Str("O")
  }

  predicate AllHaveColumn(s: set<Chunk>, col: nat)
  {
    forall c :: c in s ==> HasColumn(c, col)
  }

  /** `[x for x in s if x[0][chunk_col] != 'O']`, as a set. */
  function Labelled(s: set<Chunk>, col: nat): set<Chunk>
    requires AllHaveColumn(s, col)
  {
    set c | c in s && !IsOutside(c, col)
  }

  /** `get_ncor`: the chunks present in both sets, compared as whole
      tuples. */
  function GetNcor(gold: set<Chunk>, guess: set<Chunk>): (r: set<Chunk>)
    ensures forall c :: c in r <==> c in gold && c in guess
    ensures |r| <= |gold| && |r| <= |guess|
  {
    SubsetSize(gold * guess, gold);
    SubsetSize(gold * guess, guess);
    gold * guess
  }

  lemma SubsetSize(a: set<Chunk>, b: set<Chunk>)
    requires a <= b
    ensures |a| <= |b|
  {
    assert b == a + (b - a);
    assert a * (b - a) == {};
  }

  /** The ratios of `evaluate` from the three counts: precision over the
      labelled guess chunks, recall over the labelled gold chunks, F1 their
      harmonic mean, all times 100. Each zero denominator is a
      `ZeroDivisionError`. */
  function Ratios(correct: nat, goldCount: nat, guessCount: nat): (r: Result<Score>)
    ensures r.Success? <==> goldCount > 0 && guessCount > 0 && correct > 0
    ensures r.Failure? ==> r.error == ZeroDivision
    ensures r.Success? ==> r.value.precision * guessCount as real == 100.0 * correct as real
    ensures r.Success? ==> r.value.recall * goldCount as real == 100.0 * correct as real
    ensures r.Success? ==> r.value.f1 * (goldCount + guessCount) as real == 200.0 * correct as real
  {
    if guessCount == 0 then Failure(ZeroDivision)
    else
      var precision := correct as real / guessCount as real;
      if goldCount == 0 then Failure(ZeroDivision)
      else
        var recall := correct as real / goldCount as real;
        PercentOf(correct as real, guessCount as real);
        PercentOf(correct as real, goldCount as real);
        if precision + recall == 0.0 then Failure(ZeroDivision)
        else
          DiceIdentity(correct as real, goldCount as real, guessCount as real);
          Success(Score(100.0 * Harmonic(precision, recall), 100.0 * precision, 100.0 * recall))
  }

  /** The harmonic mean `2pr/(p+r)`. */
  function Harmonic(p: real, r: real): real
    requires p + r != 0.0
  {
    2.0 * p * r / (p + r)
  }

  /** `100·(c/d)` is the percentage `c` is of `d`; it is zero exactly when
      `c` is. */
  lemma PercentOf(c: real, d: real)
    requires 0.0 <= c && 0.0 < d
    ensures (100.0 * (c / d)) * d == 100.0 * c
    ensures 0.0 <= c / d
    ensures c / d == 0.0 <==> c == 0.0
  {
    var q := c / d;
    assert q * d == c;
    assert (100.0 * q) * d == 100.0 * (q * d);
  }

  /** The harmonic mean of `c/u` and `c/g` is `2c/(g+u)`. */
  lemma DiceIdentity(c: real, g: real, u: real)
    requires c > 0.0 && g > 0.0 && u > 0.0
    ensures c / u + c / g != 0.0
    ensures (100.0 * Harmonic(c / u, c / g)) * (g + u) == 200.0 * c
  {
    var p, r := c / u, c / g;
    assert p * u == c;
    assert r * g == c;
    assert p > 0.0 && r > 0.0;
    var f := Harmonic(p, r);
    assert f * (p + r) == 2.0 * p * r;
    assert (p + r) * (g * u) == c * (g + u) by {
      assert (p + r) * (g * u) == (p * u) * g + (r * g) * u;
    }
    assert f * (g + u) * c == 2.0 * c * c by {
      assert f * (g + u) * c == f * (c * (g + u));
      assert f * (c * (g + u)) == f * ((p + r) * (g * u));
      assert f * ((p + r) * (g * u)) == (f * (p + r)) * (g * u);
      assert (2.0 * p * r) * (g * u) == 2.0 * (p * u) * (r * g);
    }
    assert f * (g + u) == 2.0 * c by {
      assert (f * (g + u) - 2.0 * c) * c == 0.0;
    }
    assert (100.0 * f) * (g + u) == 100.0 * (f * (g + u));
  }

  /** A value `x` with `x·d = 100·c` and `0 < c <= d` is a percentage in
      `(0, 100]`. */
  lemma PercentBounds(x: real, c: real, d: real)
    requires 0.0 < c <= d && x * d == 100.0 * c
    ensures 0.0 < x <= 100.0
  {
    assert (x - 100.0) * d <= 0.0;
    SignOfProduct(x - 100.0, d);
    PositiveFactor(x, d);
  }

  lemma PositiveFactor(a: real, s: real)
    requires s > 0.0 && a * s > 0.0
    ensures a > 0.0
  {
  }

  /** `fscore`: 100 times the harmonic mean of precision and recall. */
  function FScore(precision: real, recall: real): (r: Result<real>)
    ensures r.Success? <==> precision + recall != 0.0
    ensures r.Failure? ==> r.error == ZeroDivision
    ensures r.Success? && 0.0 <= precision && 0.0 <= recall ==>
              && 100.0 * Min(precision, recall) <= r.value <= 100.0 * Max(precision, recall)
  {
    if precision + recall == 0.0 then Failure(ZeroDivision)
    else
      HarmonicBetween(precision, recall);
      Success(100.0 * Harmonic(precision, recall))
  }

  function Min(a: real, b: real): real
  {
    if a <= b then a else b
  }

  function Max(a: real, b: real): real
  {
    if a <= b then b else a
  }

  /** The harmonic mean lies between the smaller and the larger value. */
  lemma HarmonicBetween(p: real, r: real)
    ensures 0.0 <= p && 0.0 <= r && p + r != 0.0 ==>
              Min(p, r) <= Harmonic(p, r) <= Max(p, r)
  {
    if 0.0 <= p && 0.0 <= r && p + r != 0.0 {
      var s := p + r;
      var h := Harmonic(p, r);
      assert h * s == 2.0 * p * r;
      var lo, hi := Min(p, r), Max(p, r);
      assert lo * s <= 2.0 * p * r by {
        assert lo * p <= r * p by { MulMono(lo, r, p); }
        assert lo * r <= p * r by { MulMono(lo, p, r); }
      }
      assert 2.0 * p * r <= hi * s by {
        assert r * p <= hi * p by { MulMono(r, hi, p); }
        assert p * r <= hi * r by { MulMono(p, hi, r); }
      }
      assert (lo - h) * s <= 0.0;
      assert (h - hi) * s <= 0.0;
      SignOfProduct(lo - h, s);
      SignOfProduct(h - hi, s);
    }
  }

  lemma MulMono(a: real, b: real, c: real)
    requires a <= b && 0.0 <= c
    ensures a * c <= b * c
  {
    assert (b - a) * c >= 0.0;
  }

  lemma SignOfProduct(a: real, s: real)
    requires s > 0.0 && a * s <= 0.0
    ensures a <= 0.0
  {
  }

  /** `fscore` is symmetric in precision and recall. */
  lemma FScoreSymmetric(p: real, r: real)
    ensures FScore(p, r) == FScore(r, p)
  {
    if p + r != 0.0 {
      HarmonicSymmetric(p, r);
    }
  }

  lemma HarmonicSymmetric(p: real, r: real)
    requires p + r != 0.0
    ensures Harmonic(p, r) == Harmonic(r, p)
  {
    assert 2.0 * p * r == 2.0 * r * p;
  }

  /** `evaluate`, from the two chunk sets and the column of the tag cell:
      the token-count assertion, then the `'O'` filter, then the ratios. */
  ghost function Evaluate(gold: set<Chunk>, guess: set<Chunk>, col: nat): (r: Result<Score>)
    ensures r.Success? <==>
              && TokenCount(gold) == TokenCount(guess)
              && AllHaveColumn(gold, col)
              && AllHaveColumn(guess, col)
              && exists c :: c in gold && c in guess && HasColumn(c, col) && !IsOutside(c, col)
    ensures TokenCount(gold) != TokenCount(guess) ==>
              r == Failure(TokenCountMismatch(TokenCount(gold), TokenCount(guess)))
    ensures r.Failure? ==> r.error.TokenCountMismatch? || r.error == MissingColumn || r.error == ZeroDivision
    ensures TokenCount(gold) == TokenCount(guess) && !(AllHaveColumn(gold, col) && AllHaveColumn(guess, col)) ==>
              r == Failure(MissingColumn)
    ensures TokenCount(gold) == TokenCount(guess) && AllHaveColumn(gold, col) && AllHaveColumn(guess, col) && r.Failure? ==>
              r.error == ZeroDivision
    ensures r.Success? ==>
              var goch := Labelled(gold, col);
              var guch := Labelled(guess, col);
              var correct := GetNcor(goch, guch);
              && r.value.precision * |guch| as real == 100.0 * |correct| as real
              && r.value.recall * |goch| as real == 100.0 * |correct| as real
              && 0.0 < r.value.precision <= 100.0
              && 0.0 < r.value.recall <= 100.0
              && 0.0 < r.value.f1 <= 100.0
  {
    var goldTokens, guessTokens := TokenCount(gold), TokenCount(guess);
    if goldTokens != guessTokens then Failure(TokenCountMismatch(goldTokens, guessTokens))
    else if !AllHaveColumn(gold, col) || !AllHaveColumn(guess, col) then Failure(MissingColumn)
    else
      var goch := Labelled(gold, col);
      var guch := Labelled(guess, col);
      var correct := GetNcor(goch, guch);
      var r := Ratios(|correct|, |goch|, |guch|);
      RatiosBounds(|correct|, |goch|, |guch|);
      CommonLabelled(gold, guess, col);
      r
  }

  /** Some chunk is correct exactly when some chunk of both sets is
      labelled. */
  lemma CommonLabelled(gold: set<Chunk>, guess: set<Chunk>, col: nat)
    requires AllHaveColumn(gold, col) && AllHaveColumn(guess, col)
    ensures |GetNcor(Labelled(gold, col), Labelled(guess, col))| > 0 <==>
              exists c :: c in gold && c in guess && HasColumn(c, col) && !IsOutside(c, col)
  {
    var correct := GetNcor(Labelled(gold, col), Labelled(guess, col));
    if |correct| > 0 {
      var c :| c in correct;
    }
    if c :| c in gold && c in guess && HasColumn(c, col) && !IsOutside(c, col) {
      assert c in correct;
    }
  }

  /** With no more correct chunks than either side has, every ratio is a
      percentage in `(0, 100]`. */
  lemma RatiosBounds(correct: nat, goldCount: nat, guessCount: nat)
    requires correct <= goldCount && correct <= guessCount
    ensures var r := Ratios(correct, goldCount, guessCount);
              r.Success? ==>
                && 0.0 < r.value.precision <= 100.0
                && 0.0 < r.value.recall <= 100.0
                && 0.0 < r.value.f1 <= 100.0
  {
    var r := Ratios(correct, goldCount, guessCount);
    if r.Success? {
      var c, g, u := correct as real, goldCount as real, guessCount as real;
      PercentBounds(r.value.precision, c, u);
      PercentBounds(r.value.recall, c, g);
      assert r.value.f1 * (g + u) == 100.0 * (2.0 * c);
      PercentBounds(r.value.f1, 2.0 * c, g + u);
    }
  }

  /** Swapping gold and guess swaps precision and recall and keeps F1. */
  lemma RatiosSymmetric(correct: nat, goldCount: nat, guessCount: nat)
    ensures Ratios(correct, goldCount, guessCount).Success? <==> Ratios(correct, guessCount, goldCount).Success?
    ensures var a, b := Ratios(correct, goldCount, guessCount), Ratios(correct, guessCount, goldCount);
              a.Success? ==>
                && a.value.f1 == b.value.f1
                && a.value.precision == b.value.recall
                && a.value.recall == b.value.precision
  {
    if Ratios(correct, goldCount, guessCount).Success? {
      var c := correct as real;
      HarmonicSymmetric(c / guessCount as real, c / goldCount as real);
    }
  }

  /** Symmetry of `evaluate`: swapping gold and guess swaps precision and
      recall, keeps F1, and fails in the same way. */
  lemma EvaluateSymmetric(gold: set<Chunk>, guess: set<Chunk>, col: nat)
    ensures var a, b := Evaluate(gold, guess, col), Evaluate(guess, gold, col);
              && (a.Success? <==> b.Success?)
              && (a.Success? ==>
                    && a.value.f1 == b.value.f1
                    && a.value.precision == b.value.recall
                    && a.value.recall == b.value.precision)
              && (a.Failure? ==>
                    b.error == if a.error.TokenCountMismatch?
                               then TokenCountMismatch(a.error.guess, a.error.gold)
                               else a.error)
  {
    if TokenCount(gold) == TokenCount(guess) && AllHaveColumn(gold, col) && AllHaveColumn(guess, col) {
      var goch, guch := Labelled(gold, col), Labelled(guess, col);
      assert GetNcor(goch, guch) == GetNcor(guch, goch);
      RatiosSymmetric(|GetNcor(goch, guch)|, |goch|, |guch|);
    }
  }

  /** Identity: a chunk set scored against itself, with at least one
      labelled chunk, gets 100 for precision, recall and F1. */
  lemma EvaluateIdentity(s: set<Chunk>, col: nat)
    requires AllHaveColumn(s, col)
    requires exists c :: c in s && !IsOutside(c, col)
    ensures Evaluate(s, s, col) == Success(Score(100.0, 100.0, 100.0))
  {
    var labelled := Labelled(s, col);
    assert GetNcor(labelled, labelled) == labelled;
    var c :| c in s && !IsOutside(c, col);
    assert c in labelled;
  }

  /** The F1 that `evaluate` returns is `fscore` of its precision and
      recall taken as fractions. */
  lemma EvaluateIsFScore(gold: set<Chunk>, guess: set<Chunk>, col: nat)
    requires Evaluate(gold, guess, col).Success?
    ensures var s := Evaluate(gold, guess, col).value;
              FScore(s.precision / 100.0, s.recall / 100.0) == Success(s.f1)
  {
    var goch, guch := Labelled(gold, col), Labelled(guess, col);
    var correct := GetNcor(goch, guch);
    assert Evaluate(gold, guess, col) == Ratios(|correct|, |goch|, |guch|);
    RatiosIsFScore(|correct|, |goch|, |guch|);
  }

  lemma RatiosIsFScore(correct: nat, goldCount: nat, guessCount: nat)
    requires Ratios(correct, goldCount, guessCount).Success?
    ensures var s := Ratios(correct, goldCount, guessCount).value;
              FScore(s.precision / 100.0, s.recall / 100.0) == Success(s.f1)
  {
    var s := Ratios(correct, goldCount, guessCount).value;
    var p := correct as real / guessCount as real;
    var r := correct as real / goldCount as real;
    DiceIdentity(correct as real, goldCount as real, guessCount as real);
    assert s == Score(100.0 * Harmonic(p, r), 100.0 * p, 100.0 * r);
    assert s.precision / 100.0 == p;
    assert s.recall / 100.0 == r;
  }

  /** Only a tag cell equal to `'O'` excludes a chunk: a chunk whose tag
      cell is `'.'` is still scored. */
  lemma OnlyExactOExcluded()
    ensures var outside: Chunk := [[Int(4), Str("."), Str("."), Str("O")]];
            var dot: Chunk := [[Int(8), Str("."), Str("."), Str(".")]];
            Labelled({outside, dot}, 3) == {dot}
  {
    var outside: Chunk := [[Int(4), Str("."), Str("."), Str("O")]];
    var dot: Chunk := [[Int(8), Str("."), Str("."), Str(".")]];
    assert IsOutside(outside, 3);
    assert !IsOutside(dot, 3) by {
      assert dot[0][3] == Str(".");
      assert "." != "O";
    }
  }
}
